=== FILE: README.md ===
# Hotel search filters — a Dafny model

A model of the filtering and form-state logic of a small client-side hotel catalogue. The browser
loads a list of hotels. A search form builds a filter record from checkboxes, number fields and a
country search box. Submitting the form keeps the hotels that pass every active check, and the
result list shows a window of three hotels at the current page index.

Modules, one per concept of the source:

- `JsValues` (`js_values.dfy`): the JavaScript values a change event can store in the filter
  record: an integral number, NaN, or a string. Also truthiness, `parseInt`, the `Number(...)`
  coercion used when a stored string is compared with a price, and the two equalities in play.
  `includes` is SameValueZero, which coincides with Dafny `==` here. `!==` is `StrictEquals`,
  under which NaN never equals itself.
- `Types` (`types.dfy`): the `Hotel` and `Filters` records of `src/types.ts`. Every filter field
  holds `Value`s, because the change handler stores whatever the event carried. `extra` holds
  the keys that events with an unrecognised field name add to the record.
- `Sequences` (`sequences.dfy`): order-preserving subsequence and duplicate-freedom.
- `HotelFilter` (`hotel_filter.dfy`): `applyFiltersToList`. `Keep` mirrors the source's
  accumulated `isValid &&= …` flag. `AllActiveChecksHold` is the independent reading: every
  active check holds. The two are proved equal.
- `SearchForm` (`search_form.dfy`): `initialFilters`, the change handler, submit and reset. It
  also has a run of form events and the lemmas about runs.
- `CountrySearch` (`country_search.dfy`): the country search box. It has `indexOf`, the search
  effect and the effect that fires when a new list of available countries arrives.
- `Countries` (`countries.dfy`): the de-duplicated list of countries, built with a set in
  first-occurrence order.
- `Pagination` (`pagination.dfy`): the page window as written, and the corrected window (see
  Findings).

Behaviour of the code worth knowing:

- Checking a box appends the value even when it is already present. There is no de-duplication.
- A "number" value that does not parse is stored as NaN. It is not rejected. In a scalar
  field NaN switches that scalar field's check off. Appended to an empty list field, NaN
  switches that list's check on and no hotel passes it. Appended to a non-empty list field,
  it matches no hotel and leaves the result unchanged.
- An unrecognised field name writes a new key into the record. It is not ignored.
- Scalar checks are active when the value is truthy. So the defaults `reviewCount = -1` and
  `priceTo = 100500` keep their checks active. `0` and NaN switch a check off. A negative
  `priceFrom` also switches its check on.
- The page window starts at the page index itself, not at page × 3.

## Model

| member | source | states |
|---|---|---|
| HotelFilter.ApplyFilters | src/application.tsx:67-91 | the result is an order-preserving subsequence of the list, no longer than it, and holds a hotel iff the hotel is in the list and passes the per-hotel callback; each passing hotel keeps its number of occurrences and each failing one occurs zero times |
| HotelFilter.KeepIffAllActiveChecksHold | src/application.tsx:69-89 | the accumulated `isValid` flag is true iff every active check holds: reviews ≥ reviewCount, type in the type list, stars in starCount, priceFrom ≤ price, priceTo ≥ price, country in the country list; list checks are active when the list is non-empty, scalar checks when truthy |
| HotelFilter.FilterIdempotent | src/application.tsx:67-91 | filtering the result again with the same filters returns the same list |
| HotelFilter.FilterKeepsAllIff | src/application.tsx:67-91 | the whole list comes back unchanged iff every hotel in it passes the callback |
| HotelFilter.FilterMonotone | src/application.tsx:67-91 | filters that keep at least the hotels another keeps give a result that contains the other's result as a subsequence |
| HotelFilter.FilterExtensional | src/application.tsx:67-91 | filters that keep the same hotels of a list give the same result |
| HotelFilter.NarrowEmptyListField | src/application.tsx:74-87 | filling an empty type, star or country list with any values never enlarges the result: the new result is a subsequence of the old |
| HotelFilter.WidenListField | src/application.tsx:74-87 | appending a value to a non-empty type, star or country list never shrinks the result: the old result is a subsequence of the new |
| HotelFilter.ZeroScalarImposesNothing | src/application.tsx:71-84 | a scalar field set to 0 gives the same result as NaN there, and that result contains the result for any other value of the field |
| JsValues.ToNumber | src/application.tsx:71-84 | the coercion of a filter value compared with a number leaves numbers alone, keeps NaN, turns a string into `Number(s)`, and never yields a string |
| JsValues.StringToNumberOfIntToString | src/application.tsx:83-84 | a string holding the decimal rendering of an integer (as the priceTo range slider stores it) converts to that integer, so `<=` and `>=` against any number compare as that integer |
| JsValues.ParseInt | src/hotel-search-block/search-form.tsx:210-211 | `parseInt` yields a number or NaN, and NaN exactly when no digit follows the optional sign |
| JsValues.ParseIntOfIntToString | src/hotel-search-block/search-form.tsx:210-211 | `parseInt` reads back the decimal rendering of every integer, whatever non-digit text follows it |
| SearchForm.EventValue | src/hotel-search-block/search-form.tsx:204-211 | an event tagged "number" stores `parseInt` of its raw value (NaN on failure, never a string); any other event stores its raw string |
| SearchForm.FieldOf | src/hotel-search-block/search-form.tsx:216-235 | every field name addresses a field whose key is that name; it is one of the six declared fields iff the name is one of the six declared keys |
| SearchForm.RemoveValue | src/hotel-search-block/search-form.tsx:221 | removal keeps an order-preserving subsequence in which every element not strictly equal to the value keeps its number of occurrences and every strictly-equal element occurs zero times |
| SearchForm.RemoveAbsentValue | src/hotel-search-block/search-form.tsx:221 | removing a value that is not in the list returns the list unchanged |
| SearchForm.RemoveNaNKeepsList | src/hotel-search-block/search-form.tsx:221 | unchecking NaN removes nothing, because NaN is never strictly equal to itself |
| SearchForm.HandleChange | src/hotel-search-block/search-form.tsx:202-237 | no field name: record unchanged; unchecked box on a list field: every strictly-equal occurrence removed, every other value kept with its number of occurrences, order kept, all other fields untouched; any other event on a list field: value appended at the end, length +1, no de-duplication, all other fields untouched; scalar field: only that field overwritten; unknown name: the six declared fields unchanged and the new key written |
| SearchForm.ParseFailureStoresNaN | src/hotel-search-block/search-form.tsx:210-235 | a "number" value that does not parse replaces the scalar field with NaN, which switches that field's check off and never shrinks the filter result |
| SearchForm.StarCheckboxRoundTrip | src/hotel-search-block/search-form.tsx:210-227 | ticking the star box for n appends the number n itself; unticking it right after restores the previous record whenever n was not selected before |
| SearchForm.Step | src/hotel-search-block/search-form.tsx:184-245 | submit reports the current record and leaves it unchanged; reset reports a reset and sets the record to empty lists, priceFrom 0, priceTo 100500, reviewCount -1 and no other keys, whatever the prior state; a change applies the change handler to the record and reports nothing |
| SearchForm.ResetForgetsHistory | src/hotel-search-block/search-form.tsx:198-201 | after a reset the record depends only on the events that follow it |
| SearchForm.SubmitsLeaveStateAlone | src/hotel-search-block/search-form.tsx:194-197 | dropping every submit from a run of events gives the same final record |
| SearchForm.DefaultsKeepAll | src/hotel-search-block/search-form.tsx:184-191 | reset then submit reports the default record, and filtering with it returns the whole list iff every hotel has at least -1 reviews and a price of at most 100500 |
| CountrySearch.IndexOf | src/hotel-search-block/search-form.tsx:28 | `indexOf` is non-negative iff the search text occurs in the country name (case-sensitive), and then it is the first occurrence; otherwise it is -1 |
| CountrySearch.Matching | src/hotel-search-block/search-form.tsx:27-29 | the matches are an order-preserving subsequence of the available countries holding exactly those that contain the search text, each with its number of occurrences in the available list |
| CountrySearch.MatchingEmptySearch | src/hotel-search-block/search-form.tsx:24-29 | filtering by the empty text keeps every country, so the empty-search shortcut agrees with the general filter |
| CountrySearch.FraExample | src/hotel-search-block/search-form.tsx:27-29 | "Fra" matches France and Franconia but not Germany |
| CountrySearch.Mount | src/hotel-search-block/search-form.tsx:16-33 | on first render the widget holds the given list, the search text is empty, the full list shows, and the state satisfies the visible-list invariant |
| CountrySearch.ChangeSearch | src/hotel-search-block/search-form.tsx:19-30 | typing the current text again changes nothing; a new text shows exactly the available countries containing it, in order and each with its number of occurrences (the search filter's result), and the full list when it is empty |
| CountrySearch.VisibleAlwaysShowsFullListOrMatches | src/hotel-search-block/search-form.tsx:23-33 | after any run of events, the visible list is the full list or the current search's matches, and always an ordered sublist of the available countries |
| CountrySearch.NewListIgnoresSearchText | src/hotel-search-block/search-form.tsx:31-33 | a newly arrived list can show a country that does not contain the current search text |
| Countries.FirstOccurrences | src/application.tsx:112-114 | the result has no duplicates, holds exactly the input's elements, and orders them by their first position in the input |
| Countries.AvailableCountries | src/application.tsx:112-114 | the available countries have no duplicates, are exactly the countries some hotel has, and are ordered by the position of each country's first hotel |
| Pagination.PageWindow | src/application.tsx:39-45 | the window holds at most 3 hotels, is empty iff the page index is at least the list length, and its i-th hotel is the hotel at position page + i |
| Pagination.NeighbouringWindowsOverlap | src/application.tsx:45 | the windows at neighbouring page indexes share two of their three hotels |
| Pagination.SeventhHotelNeverShown | src/application.tsx:45-46 | with seven hotels the pager offers three pages, and no page index from 0 to 3 shows the seventh hotel |
| Pagination.PageSlice | src/application.tsx:45 | the corrected window holds at most 3 hotels, starting at position page × 3, and is empty iff page × 3 is at least the list length |
| Pagination.PageSliceEmptyIff | src/application.tsx:45-46 | a corrected window is empty iff the page index is at least the page count |
| Pagination.PagesTileList | src/application.tsx:45-46 | the corrected windows of the offered pages, concatenated, give back the whole list |
| Types.WithList | src/hotel-search-block/search-form.tsx:219-227 | updating one list key sets that key and leaves every other field of the record as it was |
| Types.WithScalar | src/hotel-search-block/search-form.tsx:231-234 | updating one scalar key sets that key and leaves every other field of the record as it was |

## Findings

| source | as written | input that shows it | evidently intended | confidence | as-written member | corrected member |
|---|---|---|---|---|---|---|
| src/application.tsx:45 | `hotels.slice(page, page + maxSize)` uses the page index as the first position | 7 hotels: index 1 shows hotels 2–4, which overlap index 0's hotels 1–3; no index from 0 to 3 shows hotel 7 | the window starts at page × maxSize, counting pages from zero (the pager reports page numbers from one, so its number minus one) | high, not executed | Pagination.SeventhHotelNeverShown | Pagination.PagesTileList |

## Left out

- Data loading (`loadHotelData`, src/application.tsx:61-66) and the fetch/`then` chains in `Application` (src/application.tsx:93-116). These are network I/O and asynchronous ordering. The last fetch to resolve wins, and that is not modelled.
- The reset link between the result view and the form (`handleResetFilters`, src/application.tsx:103-108). It calls the form's `reset()` and reloads the data, so it is I/O and DOM wiring.
- All JSX rendering and CSS, `HotelItem`, `HotelsNotFound`, the antd `Pagination` widget, and the markup of the field widgets, including the star-label pluralisation in `createStarCountList`. These are presentation or a third-party library.
- Decoding the change event from the DOM: `dataset.fieldName`, `dataset.valueType`, the choice between `dataset.value` and `target.value`, and `type`/`checked` (search-form.tsx:203-208). The model takes these as fields of an event record.
- `event.preventDefault()` in submit. It is a browser side effect.
- `Array.isArray` reads the rendered `filters` while the update uses `prev`. List keys always hold arrays and scalar keys never do, so the model uses one state.
- JavaScript numbers are floating point. Prices, counts and the guest rating are integers here, and `-0` is not told apart from `0`.
- JsValues.ParseInt: leading whitespace and the `0x` hexadecimal prefix are not modelled.
- JsValues.StringToNumber: whitespace trimming, fractions, exponents, hexadecimal and `Infinity` are not modelled. The values that reach it are decimal integers rendered by range inputs.
- SearchForm.FieldOf: names of inherited object properties (`toString`, `__proto__`) are treated like any other unknown key. The `__proto__` setter is not modelled.
- Pagination.PageWindow: takes a non-negative page index. JavaScript's negative `slice` positions are not modelled, because the page state starts at 0 and the pager reports only positive page numbers.
- CountrySearch.IndexOf: Dafny strings are sequences of Unicode scalar values, while JavaScript's `indexOf` counts UTF-16 code units. Containment agrees for well-formed names, but the returned position differs after astral-plane characters.
- React scheduling is reduced to the effects' dependency rules. The country box's `checked` state is display-only.
- `src/index.tsx` only mounts the React root.

=== FILE: countries.dfy ===
/**
 The list of available countries built once the hotels are loaded
 (`[...new Set(result.map(hotel => hotel.country))]` in `src/application.tsx`):
 each country once, in the order of its first hotel.
 */
module Countries {
  import opened Types
  import opened Sequences

  /** `hotels.map(hotel => hotel.country)`. */
  function CountriesOf(hotels: seq<Hotel>): (r: seq<string>)
    ensures |r| == |hotels|
    ensures forall i :: 0 <= i < |hotels| ==> r[i] == hotels[i].country
  {
    seq(|hotels|, i requires 0 <= i < |hotels| => hotels[i].country)
  }

  /** The position of the first `x` in `xs`. */
  function FirstIndex<T(==)>(xs: seq<T>, x: T): (i: nat)
    requires x in xs
    ensures i < |xs| && xs[i] == x && x !in xs[..i]
    decreases |xs|
  {
    if xs[0] == x then 0
    else
      var j := FirstIndex(xs[1..], x);
      assert xs[..j + 1] == [xs[0]] + xs[1..][..j];
      j + 1
  }

  /** An element of a prefix has the same first position in the whole sequence. */
  lemma FirstIndexInPrefix<T>(xs: seq<T>, n: nat, x: T)
    requires n <= |xs| && x in xs[..n]
    ensures FirstIndex(xs, x) == FirstIndex(xs[..n], x)
  {
    var i := FirstIndex(xs, x);
    var j := FirstIndex(xs[..n], x);
    assert xs[..n][j] == xs[j];
  }

  /**
   The elements of `xs` in the order a JavaScript `Set` built from it iterates
   them: each distinct element once, at its first occurrence.
   */
  function FirstOccurrences<T(==,!new)>(xs: seq<T>): (r: seq<T>)
    ensures NoDuplicates(r)
    ensures forall x :: x in r <==> x in xs
    ensures forall i, j :: 0 <= i < j < |r| ==> FirstIndex(xs, r[i]) < FirstIndex(xs, r[j])
    decreases |xs|
  {
    if xs == [] then []
    else
      var init := xs[..|xs| - 1];
      var last := xs[|xs| - 1];
      var r0 := FirstOccurrences(init);
      assert xs == init + [last];
      assert forall x :: x in xs <==> x in init || x == last;
      forall x | x in init ensures FirstIndex(xs, x) == FirstIndex(init, x) && FirstIndex(init, x) < |init| {
        FirstIndexInPrefix(xs, |xs| - 1, x);
      }
      if last in init then r0
      else
        assert FirstIndex(xs, last) == |xs| - 1;
        r0 + [last]
  }

  /** Extending the input by one element adds it at the end unless it was already there. */
  lemma FirstOccurrencesSnoc<T(!new)>(xs: seq<T>, x: T)
    ensures FirstOccurrences(xs + [x]) == if x in xs then FirstOccurrences(xs) else FirstOccurrences(xs) + [x]
  {
    var ys := xs + [x];
    assert ys[..|ys| - 1] == xs && ys[|ys| - 1] == x;
  }

  /** A country is in `CountriesOf(hotels)` exactly when some hotel has it. */
  lemma CountriesOfMembers(hotels: seq<Hotel>, c: string)
    ensures c in CountriesOf(hotels) <==> exists i :: 0 <= i < |hotels| && hotels[i].country == c
  {
    var all := CountriesOf(hotels);
    if c in all {
      var k := FirstIndex(all, c);
      assert hotels[k].country == c;
    }
  }

  /**
   The available countries: no country twice, exactly the countries some
   hotel has, and ordered by the position of each country's first hotel.
   */
  method AvailableCountries(hotels: seq<Hotel>) returns (countries: seq<string>)
    ensures countries == FirstOccurrences(CountriesOf(hotels))
    ensures NoDuplicates(countries)
    ensures forall c :: c in countries <==> exists i :: 0 <= i < |hotels| && hotels[i].country == c
    ensures forall i, j :: 0 <= i < j < |countries| ==>
      FirstIndex(CountriesOf(hotels), countries[i]) < FirstIndex(CountriesOf(hotels), countries[j])
  {
    var all := CountriesOf(hotels);
    var seen: set<string> := {};
    countries := [];
    var i := 0;
    while i < |hotels|
      invariant 0 <= i <= |hotels|
      invariant countries == FirstOccurrences(all[..i])
      invariant forall c :: c in seen <==> c in all[..i]
    {
      var c := hotels[i].country;
      assert all[..i + 1] == all[..i] + [c];
      FirstOccurrencesSnoc(all[..i], c);
      if c !in seen {
        seen := seen + {c};
        countries := countries + [c];
      }
      i := i + 1;
    }
    assert all[..|hotels|] == all;
    forall c ensures c in countries <==> exists i :: 0 <= i < |hotels| && hotels[i].country == c {
      CountriesOfMembers(hotels, c);
    }
  }
}

=== FILE: country_search.dfy ===
/**
 The country checklist of the search form (`CountryInputField` in
 `src/hotel-search-block/search-form.tsx`): a local search text narrows the
 list of available countries to those containing it, and a new list of
 available countries shows in full whatever the search text is.
 */
module CountrySearch {
  import opened Sequences

  /** `needle` occurs in `hay` starting at index `i`. */
  predicate OccursAt(hay: string, needle: string, i: int)
  {
    0 <= i && i + |needle| <= |hay| && hay[i..i + |needle|] == needle
  }

  /** Case-sensitive substring containment. */
  predicate Contains(hay: string, needle: string)
  {
    exists i :: 0 <= i <= |hay| && OccursAt(hay, needle, i)
  }

  /** `hay.indexOf(needle, from)`: the first occurrence at or after `from`, or -1. */
  function IndexOfFrom(hay: string, needle: string, from: nat): (r: int)
    ensures r == -1 || (from <= r && OccursAt(hay, needle, r))
    ensures r == -1 ==> forall i :: from <= i ==> !OccursAt(hay, needle, i)
    ensures r != -1 ==> forall i :: from <= i < r ==> !OccursAt(hay, needle, i)
    decreases |hay| - from
  {
    if from + |needle| > |hay| then -1
    else if hay[from..from + |needle|] == needle then from
    else IndexOfFrom(hay, needle, from + 1)
  }

  /** `hay.indexOf(needle)`: non-negative exactly when `needle` occurs, and then the first place it does. */
  function IndexOf(hay: string, needle: string): (r: int)
    ensures r >= 0 <==> Contains(hay, needle)
    ensures r < 0 ==> r == -1
    ensures r >= 0 ==> OccursAt(hay, needle, r) && forall i :: 0 <= i < r ==> !OccursAt(hay, needle, i)
  {
    IndexOfFrom(hay, needle, 0)
  }

  /** `available.filter(country => country.indexOf(search) >= 0)`. */
  function Matching(available: seq<string>, search: string): (r: seq<string>)
    ensures Subseq(r, available)
    ensures forall c :: c in r <==> c in available && Contains(c, search)
    ensures forall c {:trigger multiset(r)[c]} :: multiset(r)[c] == if Contains(c, search) then multiset(available)[c] else 0
    decreases |available|
  {
    if available == [] then []
    else
      var rest := Matching(available[1..], search);
      assert forall c :: c in available <==> c == available[0] || c in available[1..];
      assert available == [available[0]] + available[1..];
      if IndexOf(available[0], search) >= 0 then
        SubseqConsBoth(available[0], rest, available[1..]);
        [available[0]] + rest
      else
        SubseqConsRight(available[0], rest, available[1..]);
        rest
  }

  /** Every string contains the empty string, so filtering by "" keeps the whole list. */
  lemma {:induction false} MatchingEmptySearch(available: seq<string>)
    ensures Matching(available, "") == available
    decreases |available|
  {
    if available != [] {
      assert OccursAt(available[0], "", 0);
      MatchingEmptySearch(available[1..]);
      assert available == [available[0]] + available[1..];
    }
  }

  lemma ContainsEmpty(hay: string)
    ensures Contains(hay, "")
  {
    assert OccursAt(hay, "", 0);
  }

  /** The list the search effect shows: everything for an empty search, the matches otherwise. */
  function VisibleFor(available: seq<string>, search: string): seq<string>
  {
    if search == "" then available else Matching(available, search)
  }

  /** The widget's state: the countries it was given, its search text and the list on screen. */
  datatype CountryField = CountryField(available: seq<string>, search: string, visible: seq<string>)

  /** First render: an empty search, and both effects show the full list. */
  function Mount(available: seq<string>): (w: CountryField)
    ensures w.available == available && w.search == "" && w.visible == available
    ensures Shows(w)
  {
    CountryField(available, "", VisibleFor(available, ""))
  }

  /**
   Typing into the search box. A text equal to the current one triggers no
   effect; any other text shows exactly the available countries that contain
   it, in their original order (all of them when it is empty).
   */
  function ChangeSearch(w: CountryField, text: string): (r: CountryField)
    ensures r.available == w.available && r.search == text
    ensures text == w.search ==> r == w
    ensures text != w.search ==>
      && Subseq(r.visible, w.available)
      && (forall c :: c in r.visible <==> c in w.available && Contains(c, text))
    ensures text != w.search ==>
      forall c {:trigger multiset(r.visible)[c]} ::
        multiset(r.visible)[c] == if Contains(c, text) then multiset(w.available)[c] else 0
    ensures text != w.search && text != "" ==> r.visible == Matching(w.available, text)
    ensures text != w.search && text == "" ==> r.visible == w.available
  {
    if text == w.search then w
    else
      MatchingEmptySearch(w.available);
      CountryField(w.available, text, VisibleFor(w.available, text))
  }

  /** A new list of available countries is shown in full; the search text stays as it was. */
  function ChangeAvailable(w: CountryField, available: seq<string>): (r: CountryField)
    ensures r.available == available && r.search == w.search && r.visible == available
    ensures Shows(r) && Subseq(r.visible, r.available)
  {
    SubseqReflexive(available);
    CountryField(available, w.search, available)
  }

  /** The widget's inputs. */
  datatype WidgetEvent = SearchTyped(text: string) | AvailableChanged(countries: seq<string>)

  function Apply(w: CountryField, ev: WidgetEvent): CountryField
  {
    match ev
    case SearchTyped(t) => ChangeSearch(w, t)
    case AvailableChanged(a) => ChangeAvailable(w, a)
  }

  function RunWidget(w: CountryField, evs: seq<WidgetEvent>): CountryField
    decreases |evs|
  {
    if evs == [] then w else RunWidget(Apply(w, evs[0]), evs[1..])
  }

  /**
   What the screen can show: either the full available list (after mount or
   after a new list arrived) or the search result for the current text.
   */
  predicate Shows(w: CountryField)
  {
    w.visible == w.available || w.visible == VisibleFor(w.available, w.search)
  }

  /**
   From mount on, the visible list is always the full list or the current
   search's matches, and in either case an ordered sublist of the available countries.
   */
  lemma {:induction false} VisibleAlwaysShowsFullListOrMatches(w: CountryField, evs: seq<WidgetEvent>)
    requires Shows(w)
    ensures Shows(RunWidget(w, evs))
    ensures Subseq(RunWidget(w, evs).visible, RunWidget(w, evs).available)
    decreases |evs|
  {
    if evs == [] {
      SubseqReflexive(w.available);
    } else {
      VisibleAlwaysShowsFullListOrMatches(Apply(w, evs[0]), evs[1..]);
    }
  }

  /**
   A list that arrives while a search text is typed is shown in full, so the
   screen can list countries that do not contain the text on display.
   */
  lemma NewListIgnoresSearchText(w: CountryField, available: seq<string>, c: string)
    requires c in available && !Contains(c, w.search)
    ensures c in ChangeAvailable(w, available).visible
    ensures c !in VisibleFor(available, w.search)
  {
    ContainsEmpty(c);
  }

  /** A worked example: "Fra" picks France and Franconia, not Germany. */
  lemma FraExample()
    ensures Matching(["France", "Germany", "Franconia"], "Fra") == ["France", "Franconia"]
  {
    assert OccursAt("France", "Fra", 0);
    assert OccursAt("Franconia", "Fra", 0);
    assert !Contains("Germany", "Fra") by {
      assert 'F' !in "Germany";
      forall i ensures !OccursAt("Germany", "Fra", i) {
        if 0 <= i <= 4 {
          assert "Germany"[i..i + 3][0] == "Germany"[i];
          assert "Germany"[i] in "Germany";
        }
      }
    }
    var l := ["France", "Germany", "Franconia"];
    assert l[1..] == ["Germany", "Franconia"];
    assert l[1..][1..] == ["Franconia"];
    assert l[1..][1..][1..] == [];
  }
}

=== FILE: hotel_filter.dfy ===
/**
 The hotel list filter (`applyFiltersToList` in `src/application.tsx`): a hotel
 is kept when every check whose filter field is set holds for it, and the kept
 hotels are returned in their original order.
 */
module HotelFilter {
  import opened JsValues
  import opened Types
  import opened Sequences

  /** The six independent checks, one per filter field. */
  datatype Check = ReviewCountCheck | TypeCheck | StarCountCheck | PriceFromCheck | PriceToCheck | CountryCheck

  /**
   Whether a check takes part: a list check when its list is non-empty, a
   scalar check when its value is truthy (so `0` and NaN switch it off, while
   the defaults `-1` and `100500` leave it on).
   */
  predicate Active(f: Filters, c: Check)
  {
    match c
    case ReviewCountCheck => Truthy(f.reviewCount)
    case TypeCheck => |f.hotelType| > 0
    case StarCountCheck => |f.starCount| > 0
    case PriceFromCheck => Truthy(f.priceFrom)
    case PriceToCheck => Truthy(f.priceTo)
    case CountryCheck => |f.country| > 0
  }

  /** What each check asks of a hotel. */
  predicate Holds(f: Filters, c: Check, h: Hotel)
  {
    match c
    case ReviewCountCheck => AtMost(f.reviewCount, h.reviewsAmount)
    case TypeCheck => Str(h.hotelType) in f.hotelType
    case StarCountCheck => Num(h.stars) in f.starCount
    case PriceFromCheck => AtMost(f.priceFrom, h.minPrice)
    case PriceToCheck => AtLeast(f.priceTo, h.minPrice)
    case CountryCheck => Str(h.country) in f.country
  }

  /** The reference reading of the filter: every active check holds. */
  predicate AllActiveChecksHold(f: Filters, h: Hotel)
  {
    forall c :: Active(f, c) ==> Holds(f, c, h)
  }

  /**
   The per-hotel callback as the source writes it: a flag that starts true and
   is and-ed with each check whose field is set, in source order.
   */
  predicate Keep(f: Filters, h: Hotel)
  {
    var valid0 := true;
    var valid1 := if Truthy(f.reviewCount) then valid0 && AtMost(f.reviewCount, h.reviewsAmount) else valid0;
    var valid2 := if |f.hotelType| > 0 then valid1 && Str(h.hotelType) in f.hotelType else valid1;
    var valid3 := if |f.starCount| > 0 then valid2 && Num(h.stars) in f.starCount else valid2;
    var valid4 := if Truthy(f.priceFrom) then valid3 && AtMost(f.priceFrom, h.minPrice) else valid3;
    var valid5 := if Truthy(f.priceTo) then valid4 && AtLeast(f.priceTo, h.minPrice) else valid4;
    var valid6 := if |f.country| > 0 then valid5 && Str(h.country) in f.country else valid5;
    valid6
  }

  /** The accumulated flag is exactly the conjunction of the active checks. */
  lemma KeepIffAllActiveChecksHold(f: Filters, h: Hotel)
    ensures Keep(f, h) <==> AllActiveChecksHold(f, h)
  {
    if Keep(f, h) {
      forall c ensures Active(f, c) ==> Holds(f, c, h) {
        match c
        case ReviewCountCheck =>
        case TypeCheck =>
        case StarCountCheck =>
        case PriceFromCheck =>
        case PriceToCheck =>
        case CountryCheck =>
      }
    } else {
      var c :=
        if Truthy(f.reviewCount) && !AtMost(f.reviewCount, h.reviewsAmount) then ReviewCountCheck
        else if |f.hotelType| > 0 && Str(h.hotelType) !in f.hotelType then TypeCheck
        else if |f.starCount| > 0 && Num(h.stars) !in f.starCount then StarCountCheck
        else if Truthy(f.priceFrom) && !AtMost(f.priceFrom, h.minPrice) then PriceFromCheck
        else if Truthy(f.priceTo) && !AtLeast(f.priceTo, h.minPrice) then PriceToCheck
        else CountryCheck;
      assert Active(f, c) && !Holds(f, c, h);
    }
  }

  /** `list.filter(hotel => Keep(filters, hotel))`. */
  function ApplyFilters(f: Filters, list: seq<Hotel>): (r: seq<Hotel>)
    ensures Subseq(r, list)
    ensures |r| <= |list|
    ensures forall h :: h in r <==> h in list && Keep(f, h)
    ensures forall h {:trigger multiset(r)[h]} :: multiset(r)[h] == if Keep(f, h) then multiset(list)[h] else 0
    decreases |list|
  {
    if list == [] then []
    else
      var rest := ApplyFilters(f, list[1..]);
      assert forall h :: h in list <==> h == list[0] || h in list[1..];
      if Keep(f, list[0]) then
        SubseqConsBoth(list[0], rest, list[1..]);
        assert list == [list[0]] + list[1..];
        [list[0]] + rest
      else
        SubseqConsRight(list[0], rest, list[1..]);
        assert list == [list[0]] + list[1..];
        rest
  }

  /** Filtering the result again with the same filters changes nothing. */
  lemma {:induction false} FilterIdempotent(f: Filters, list: seq<Hotel>)
    ensures ApplyFilters(f, ApplyFilters(f, list)) == ApplyFilters(f, list)
    decreases |list|
  {
    if list != [] {
      var rest := ApplyFilters(f, list[1..]);
      FilterIdempotent(f, list[1..]);
      if Keep(f, list[0]) {
        var r := [list[0]] + rest;
        assert r[0] == list[0] && r[1..] == rest;
      }
    }
  }

  /** The whole list comes back exactly when every hotel in it is kept. */
  lemma {:induction false} FilterKeepsAllIff(f: Filters, list: seq<Hotel>)
    ensures ApplyFilters(f, list) == list <==> forall h :: h in list ==> Keep(f, h)
    decreases |list|
  {
    if list != [] {
      if forall h :: h in list ==> Keep(f, h) {
        assert forall h :: h in list[1..] ==> h in list;
        FilterKeepsAllIff(f, list[1..]);
        assert Keep(f, list[0]);
        calc {
          ApplyFilters(f, list);
          [list[0]] + ApplyFilters(f, list[1..]);
          [list[0]] + list[1..];
          list;
        }
      }
    }
  }

  /** Filters that keep at least the hotels another keeps give a supersequence of its result. */
  lemma {:induction false} FilterMonotone(f: Filters, g: Filters, list: seq<Hotel>)
    requires forall h :: h in list && Keep(f, h) ==> Keep(g, h)
    ensures Subseq(ApplyFilters(f, list), ApplyFilters(g, list))
    decreases |list|
  {
    if list != [] {
      assert forall h :: h in list[1..] ==> h in list;
      FilterMonotone(f, g, list[1..]);
      var a := ApplyFilters(f, list[1..]);
      var b := ApplyFilters(g, list[1..]);
      if Keep(f, list[0]) {
        SubseqConsBoth(list[0], a, b);
      } else if Keep(g, list[0]) {
        SubseqConsRight(list[0], a, b);
      }
    }
  }

  /** Filters that keep the same hotels give the same result. */
  lemma {:induction false} FilterExtensional(f: Filters, g: Filters, list: seq<Hotel>)
    requires forall h :: h in list ==> (Keep(f, h) <==> Keep(g, h))
    ensures ApplyFilters(f, list) == ApplyFilters(g, list)
    decreases |list|
  {
    if list != [] {
      assert forall h :: h in list[1..] ==> h in list;
      FilterExtensional(f, g, list[1..]);
    }
  }

  /** Switching on an empty list field (giving it any values) never enlarges the result. */
  lemma {:induction false} NarrowEmptyListField(f: Filters, k: ListKey, vs: seq<Value>, list: seq<Hotel>)
    requires GetList(f, k) == []
    ensures Subseq(ApplyFilters(WithList(f, k, vs), list), ApplyFilters(f, list))
  {
    var g := WithList(f, k, vs);
    forall h | h in list && Keep(g, h) ensures Keep(f, h) {
      KeepIffAllActiveChecksHold(f, h);
      KeepIffAllActiveChecksHold(g, h);
      forall c | Active(f, c) ensures Holds(f, c, h) {
        assert Active(g, c) && Holds(g, c, h);
      }
    }
    FilterMonotone(g, f, list);
  }

  /** Accepting one more value in an already non-empty list field never shrinks the result. */
  lemma {:induction false} WidenListField(f: Filters, k: ListKey, v: Value, list: seq<Hotel>)
    requires GetList(f, k) != []
    ensures Subseq(ApplyFilters(f, list), ApplyFilters(WithList(f, k, GetList(f, k) + [v]), list))
  {
    var g := WithList(f, k, GetList(f, k) + [v]);
    forall h | h in list && Keep(f, h) ensures Keep(g, h) {
      KeepIffAllActiveChecksHold(f, h);
      KeepIffAllActiveChecksHold(g, h);
      forall c | Active(g, c) ensures Holds(g, c, h) {
        assert Active(f, c) && Holds(f, c, h);
      }
    }
    FilterMonotone(f, g, list);
  }

  /**
   A scalar field set to `0` imposes nothing: the result is the same as with
   NaN in that field, and contains every hotel any other value there admits.
   */
  lemma {:induction false} ZeroScalarImposesNothing(f: Filters, k: ScalarKey, list: seq<Hotel>)
    ensures ApplyFilters(WithScalar(f, k, Num(0)), list) == ApplyFilters(WithScalar(f, k, NaN), list)
    ensures Subseq(ApplyFilters(f, list), ApplyFilters(WithScalar(f, k, Num(0)), list))
  {
    var zero := WithScalar(f, k, Num(0));
    var nan := WithScalar(f, k, NaN);
    FilterExtensional(zero, nan, list);
    FilterMonotone(f, zero, list);
  }
}

=== FILE: js_values.dfy ===
/**
 The slice of JavaScript value semantics that the hotel filter code relies on:
 the values a change event can store in the filter record (an integral number,
 NaN, or a string), truthiness, `parseInt`, the `Number(...)` coercion applied
 when a string meets a number in a comparison, and the two equalities in play
 (`includes` uses SameValueZero, `!==` is strict inequality).
 */
module JsValues {

  /** A value held in a filter field. Numbers are integral; `-0` is not distinguished from `0`. */
  datatype Value = Num(n: int) | NaN | Str(s: string)

  /** JavaScript truthiness: `0`, `NaN` and `""` are falsy. */
  predicate Truthy(v: Value)
  {
    match v
    case Num(n) => n != 0
    case NaN => false
    case Str(s) => s != ""
  }

  /**
   `a === b`. SameValueZero (the equality of `Array.prototype.includes`) differs
   from it only on NaN, where it coincides with Dafny's `==` on `Value`; so
   `xs.includes(v)` is modelled as `v in xs` throughout.
   */
  predicate StrictEquals(a: Value, b: Value)
  {
    a == b && a != NaN
  }

  predicate IsDigit(c: char)
  {
    '0' <= c <= '9'
  }

  predicate AllDigits(s: string)
  {
    forall i :: 0 <= i < |s| ==> IsDigit(s[i])
  }

  function DigitValue(c: char): nat
    requires IsDigit(c)
  {
    (c as int) - ('0' as int)
  }

  function DigitChar(d: nat): (c: char)
    requires d < 10
    ensures IsDigit(c) && DigitValue(c) == d
  {
    ('0' as int + d) as char
  }

  /** The decimal value of a string of digits, most significant first. */
  function DigitsValue(ds: string): nat
    requires AllDigits(ds)
    decreases |ds|
  {
    if ds == [] then 0 else DigitsValue(ds[..|ds| - 1]) * 10 + DigitValue(ds[|ds| - 1])
  }

  /** Length of the longest prefix of `s` made of decimal digits. */
  function DigitPrefixLength(s: string): (k: nat)
    ensures k <= |s|
    ensures AllDigits(s[..k])
    ensures k < |s| ==> !IsDigit(s[k])
    decreases |s|
  {
    if s == [] || !IsDigit(s[0]) then 0 else 1 + DigitPrefixLength(s[1..])
  }

  /** `s` without one leading sign character. */
  function Unsigned(s: string): string
  {
    if |s| > 0 && (s[0] == '-' || s[0] == '+') then s[1..] else s
  }

  predicate IsNegative(s: string)
  {
    |s| > 0 && s[0] == '-'
  }

  /**
   `parseInt(s)` (radix 10): an optional sign followed by the longest run of
   digits; trailing text is ignored and a string with no leading digit gives NaN.
   */
  function ParseInt(s: string): (v: Value)
    ensures !v.Str?
    ensures v == NaN <==> Unsigned(s) == [] || !IsDigit(Unsigned(s)[0])
  {
    var body := Unsigned(s);
    var k := DigitPrefixLength(body);
    if k == 0 then NaN
    else
      var m: int := DigitsValue(body[..k]);
      Num(if IsNegative(s) then -m else m)
  }

  /**
   `Number(s)` for the strings the model needs: the empty string is `0`, a
   signed run of digits is that integer, anything else is NaN.
   */
  function StringToNumber(s: string): (v: Value)
    ensures !v.Str?
    ensures s == "" ==> v == Num(0)
  {
    if s == "" then Num(0)
    else
      var body := Unsigned(s);
      if body != [] && AllDigits(body) then
        var m: int := DigitsValue(body);
        Num(if IsNegative(s) then -m else m)
      else NaN
  }

  /** The numeric coercion applied to a filter value compared with a number. */
  function ToNumber(v: Value): (r: Value)
    ensures !r.Str?
    ensures v.Num? ==> r == v
    ensures v == NaN ==> r == NaN
    ensures v.Str? ==> r == StringToNumber(v.s)
  {
    match v
    case Num(_) => v
    case NaN => NaN
    case Str(s) => StringToNumber(s)
  }

  /** `v <= n` for a number `n`: false whenever `v` coerces to NaN. */
  predicate AtMost(v: Value, n: int)
  {
    var x := ToNumber(v);
    x.Num? && x.n <= n
  }

  /** `v >= n` for a number `n`: false whenever `v` coerces to NaN. */
  predicate AtLeast(v: Value, n: int)
  {
    var x := ToNumber(v);
    x.Num? && x.n >= n
  }

  /** Decimal rendering of a natural number, as `String(n)` produces it. */
  function NatToString(n: nat): (s: string)
    ensures |s| > 0 && AllDigits(s)
    decreases n
  {
    if n < 10 then [DigitChar(n)] else NatToString(n / 10) + [DigitChar(n % 10)]
  }

  function IntToString(n: int): string
  {
    if n < 0 then "-" + NatToString(-n) else NatToString(n)
  }

  lemma {:induction false} NatToStringValue(n: nat)
    ensures DigitsValue(NatToString(n)) == n
    decreases n
  {
    if n >= 10 {
      NatToStringValue(n / 10);
      var s := NatToString(n);
      assert s[..|s| - 1] == NatToString(n / 10);
    }
  }

  /** The digits of a number stop at the first non-digit that follows them. */
  lemma {:induction false} DigitPrefixOfDigits(ds: string, tail: string)
    requires AllDigits(ds)
    requires tail == [] || !IsDigit(tail[0])
    ensures DigitPrefixLength(ds + tail) == |ds|
    ensures (ds + tail)[..|ds|] == ds
    decreases |ds|
  {
    if ds == [] {
      assert ds + tail == tail;
    } else {
      assert AllDigits(ds[1..]) by {
        forall i | 0 <= i < |ds[1..]| ensures IsDigit(ds[1..][i]) {
          assert ds[1..][i] == ds[i + 1];
        }
      }
      DigitPrefixOfDigits(ds[1..], tail);
      assert (ds + tail)[1..] == ds[1..] + tail;
      assert IsDigit((ds + tail)[0]);
    }
  }

  /**
   `parseInt` reads back the decimal rendering of any integer, whatever
   non-digit text follows it (`parseInt("3 stars") === 3`).
   */
  lemma ParseIntOfIntToString(n: int, tail: string)
    requires tail == [] || !IsDigit(tail[0])
    ensures ParseInt(IntToString(n) + tail) == Num(n)
  {
    var ds := NatToString(if n < 0 then -n else n);
    NatToStringValue(if n < 0 then -n else n);
    DigitPrefixOfDigits(ds, tail);
    var s := IntToString(n) + tail;
    if n < 0 {
      assert s == "-" + (ds + tail);
      assert Unsigned(s) == ds + tail;
    } else {
      assert s == ds + tail;
      assert IsDigit(s[0]);
      assert Unsigned(s) == ds + tail;
    }
  }

  /** `Number` also reads back the decimal rendering of any integer. */
  lemma StringToNumberOfIntToString(n: int)
    ensures StringToNumber(IntToString(n)) == Num(n)
    ensures forall m :: AtMost(Str(IntToString(n)), m) <==> n <= m
    ensures forall m :: AtLeast(Str(IntToString(n)), m) <==> n >= m
  {
    var ds := NatToString(if n < 0 then -n else n);
    NatToStringValue(if n < 0 then -n else n);
    var s := IntToString(n);
    if n < 0 {
      assert s == "-" + ds;
      assert Unsigned(s) == ds;
    } else {
      assert IsDigit(s[0]);
      assert Unsigned(s) == ds;
    }
  }
}

=== FILE: pagination.dfy ===
/**
 The visible part of the result list (`HotelList` in `src/application.tsx`):
 at most `PageSize` hotels cut out of the list at the current page index.
 */
module Pagination {

  /** `maxSize`: hotels per page. */
  const PageSize: nat := 3

  function Min(a: int, b: int): int
  {
    if a <= b then a else b
  }

  /**
   `hotels.slice(page, page + maxSize)`. The page index is used as the first
   position of the window, not multiplied by the page size.
   */
  function PageWindow<T>(items: seq<T>, page: nat): (w: seq<T>)
    ensures |w| <= PageSize
    ensures |w| == 0 <==> page >= |items|
    ensures page < |items| ==> |w| == Min(PageSize, |items| - page)
    ensures forall i :: 0 <= i < |w| ==> page + i < |items| && w[i] == items[page + i]
  {
    items[Min(page, |items|)..Min(page + PageSize, |items|)]
  }

  /** Windows at neighbouring page indexes share all but one item. */
  lemma NeighbouringWindowsOverlap<T>(items: seq<T>, page: nat)
    requires page + PageSize < |items|
    ensures PageWindow(items, page + 1)[..PageSize - 1] == PageWindow(items, page)[1..]
  {
  }

  /** Number of pages the pager offers for `n` hotels. */
  function PageCount(n: nat): nat
  {
    (n + PageSize - 1) / PageSize
  }

  /**
   With seven hotels the pager offers three pages, and no page index from 0
   to 3 brings the seventh hotel into the window.
   */
  lemma SeventhHotelNeverShown<T>(items: seq<T>)
    requires |items| == 7
    ensures PageCount(|items|) == 3
    ensures forall page: nat :: page <= 3 ==> page + |PageWindow(items, page)| <= 6
  {
  }

  /** The evidently intended window: page `page` starts at `page * PageSize`. */
  function PageSlice<T>(items: seq<T>, page: nat): (w: seq<T>)
    ensures |w| <= PageSize
    ensures |w| == 0 <==> page * PageSize >= |items|
    ensures forall i :: 0 <= i < |w| ==>
      page * PageSize + i < |items| && w[i] == items[page * PageSize + i]
  {
    items[Min(page * PageSize, |items|)..Min(page * PageSize + PageSize, |items|)]
  }

  /** A page index shows something exactly when it is below the page count. */
  lemma PageSliceEmptyIff<T>(items: seq<T>, page: nat)
    ensures PageSlice(items, page) == [] <==> page >= PageCount(|items|)
  {
    var n := |items|;
    if page >= PageCount(n) {
      assert (n + 2) / 3 * 3 >= n;
      assert page * 3 >= (n + 2) / 3 * 3;
    } else {
      assert page * 3 <= ((n + 2) / 3 - 1) * 3;
      assert ((n + 2) / 3 - 1) * 3 < n;
    }
  }

  /** The first `count` pages, one after the other. */
  function Pages<T>(items: seq<T>, count: nat): seq<T>
    decreases count
  {
    if count == 0 then [] else Pages(items, count - 1) + PageSlice(items, count - 1)
  }

  lemma {:induction false} PagesArePrefix<T>(items: seq<T>, count: nat)
    ensures Pages(items, count) == items[..Min(count * PageSize, |items|)]
    decreases count
  {
    if count > 0 {
      PagesArePrefix(items, count - 1);
      var a := Min((count - 1) * PageSize, |items|);
      var b := Min(count * PageSize, |items|);
      assert items[..b] == items[..a] + items[a..b];
    }
  }

  /** With the intended window the pages the pager offers show every hotel once, in order. */
  lemma PagesTileList<T>(items: seq<T>)
    ensures Pages(items, PageCount(|items|)) == items
  {
    var n := |items|;
    PagesArePrefix(items, PageCount(n));
    assert PageCount(n) * PageSize >= n;
    assert items[..n] == items;
  }
}

=== FILE: search_form.dfy ===
/**
 The search form's filter state (`SearchForm` in
 `src/hotel-search-block/search-form.tsx`): the default filter record, the
 change handler that folds one input event into the record, and the submit
 and reset transitions.
 */
module SearchForm {
  import opened JsValues
  import opened Types
  import opened Sequences
  import opened HotelFilter

  /** The upper end of the price range, also the default `priceTo`. */
  const MaxPrice: int := 100500

  /** `initialFilters`: empty lists, `priceFrom` 0, `priceTo` 100500, `reviewCount` -1, no other keys. */
  function InitialFilters(): Filters
  {
    Filters([], [], [], Num(-1), Num(0), Num(MaxPrice), map[])
  }

  /** An optional value: an input's field name, or the notice a form event produces. */
  datatype Option<+T> = None | Some(value: T)

  /** The field a `data-field-name` string addresses. */
  datatype Field = ListField(list: ListKey) | ScalarField(scalar: ScalarKey) | OtherField(name: string)

  function KeyName(f: Field): string
  {
    match f
    case ListField(CountryKey) => "country"
    case ListField(TypeKey) => "type"
    case ListField(StarCountKey) => "starCount"
    case ScalarField(ReviewCountKey) => "reviewCount"
    case ScalarField(PriceFromKey) => "priceFrom"
    case ScalarField(PriceToKey) => "priceTo"
    case OtherField(n) => n
  }

  predicate IsDeclaredName(name: string)
  {
    name in ["country", "type", "starCount", "reviewCount", "priceFrom", "priceTo"]
  }

  /** The property of the filter record that the key `name` reaches. */
  function FieldOf(name: string): (r: Field)
    ensures KeyName(r) == name
    ensures r.OtherField? <==> !IsDeclaredName(name)
  {
    if name == "country" then ListField(CountryKey)
    else if name == "type" then ListField(TypeKey)
    else if name == "starCount" then ListField(StarCountKey)
    else if name == "reviewCount" then ScalarField(ReviewCountKey)
    else if name == "priceFrom" then ScalarField(PriceFromKey)
    else if name == "priceTo" then ScalarField(PriceToKey)
    else OtherField(name)
  }

  /**
   One change event, already read off its target: the field name (absent when
   the input carries none), the raw value, whether it is tagged "number", and
   the checkbox flags.
   */
  datatype ChangeEvent = ChangeEvent(
    fieldName: Option<string>,
    raw: string,
    numberHint: bool,
    isCheckbox: bool,
    checked: bool)

  /** The field an event addresses, or None when its field name is missing or empty. */
  function Target(e: ChangeEvent): Option<Field>
  {
    if e.fieldName.None? || e.fieldName.value == "" then None else Some(FieldOf(e.fieldName.value))
  }

  /** The value an event stores: parsed when tagged "number" (NaN on failure), the raw string otherwise. */
  function EventValue(e: ChangeEvent): (v: Value)
    ensures e.numberHint ==> v == ParseInt(e.raw)
    ensures e.numberHint ==> !v.Str? && (v == NaN <==> Unsigned(e.raw) == [] || !IsDigit(Unsigned(e.raw)[0]))
    ensures !e.numberHint ==> v == Str(e.raw)
  {
    if e.numberHint then ParseInt(e.raw) else Str(e.raw)
  }

  /** `xs.filter(val => val !== v)`: every strictly-equal element goes, the rest keep their order. */
  function RemoveValue(xs: seq<Value>, v: Value): (r: seq<Value>)
    ensures Subseq(r, xs)
    ensures forall x :: x in r <==> x in xs && !StrictEquals(x, v)
    ensures forall x {:trigger multiset(r)[x]} :: multiset(r)[x] == if StrictEquals(x, v) then 0 else multiset(xs)[x]
    decreases |xs|
  {
    if xs == [] then []
    else
      var rest := RemoveValue(xs[1..], v);
      assert forall x :: x in xs <==> x == xs[0] || x in xs[1..];
      assert xs == [xs[0]] + xs[1..];
      if StrictEquals(xs[0], v) then
        SubseqConsRight(xs[0], rest, xs[1..]);
        rest
      else
        SubseqConsBoth(xs[0], rest, xs[1..]);
        [xs[0]] + rest
  }

  /** Removing a value that is not there is a no-op. */
  lemma {:induction false} RemoveAbsentValue(xs: seq<Value>, v: Value)
    requires v !in xs
    ensures RemoveValue(xs, v) == xs
    decreases |xs|
  {
    if xs != [] {
      assert v !in xs[1..];
      RemoveAbsentValue(xs[1..], v);
      assert xs == [xs[0]] + xs[1..];
    }
  }

  /** NaN is never `!==`-equal to itself, so unchecking NaN removes nothing. */
  lemma {:induction false} RemoveNaNKeepsList(xs: seq<Value>)
    ensures RemoveValue(xs, NaN) == xs
    decreases |xs|
  {
    if xs != [] {
      RemoveNaNKeepsList(xs[1..]);
      assert xs == [xs[0]] + xs[1..];
    }
  }

  /** Removal distributes over concatenation. */
  lemma {:induction false} RemoveValueAppend(xs: seq<Value>, ys: seq<Value>, v: Value)
    ensures RemoveValue(xs + ys, v) == RemoveValue(xs, v) + RemoveValue(ys, v)
    decreases |xs|
  {
    if xs == [] {
      assert xs + ys == ys;
    } else {
      assert (xs + ys)[0] == xs[0];
      assert (xs + ys)[1..] == xs[1..] + ys;
      RemoveValueAppend(xs[1..], ys, v);
    }
  }

  /**
   `handleFormChange`: an event without a field name changes nothing; on a list
   field an unchecked checkbox removes the value and anything else appends it;
   any other field name has its key overwritten.
   */
  function HandleChange(f: Filters, e: ChangeEvent): (r: Filters)
    ensures Target(e) == None ==> r == f
    ensures Target(e).Some? && Target(e).value.ListField? && e.isCheckbox && !e.checked ==>
      var k := Target(e).value.list;
      && Subseq(GetList(r, k), GetList(f, k))
      && (forall x :: x in GetList(r, k) <==> x in GetList(f, k) && !StrictEquals(x, EventValue(e)))
      && (forall x {:trigger multiset(GetList(r, k))[x]} :: multiset(GetList(r, k))[x] ==
            if StrictEquals(x, EventValue(e)) then 0 else multiset(GetList(f, k))[x])
      && (EventValue(e) != NaN ==> EventValue(e) !in GetList(r, k))
      && OnlyListDiffers(f, r, k)
    ensures Target(e).Some? && Target(e).value.ListField? && !(e.isCheckbox && !e.checked) ==>
      var k := Target(e).value.list;
      && |GetList(r, k)| == |GetList(f, k)| + 1
      && GetList(r, k)[..|GetList(f, k)|] == GetList(f, k)
      && GetList(r, k)[|GetList(f, k)|] == EventValue(e)
      && OnlyListDiffers(f, r, k)
    ensures Target(e).Some? && Target(e).value.ScalarField? ==>
      var k := Target(e).value.scalar;
      GetScalar(r, k) == EventValue(e) && OnlyScalarDiffers(f, r, k)
    ensures Target(e).Some? && Target(e).value.OtherField? ==>
      SameKnownFields(r, f) && r.extra == f.extra[e.fieldName.value := EventValue(e)]
  {
    var value := EventValue(e);
    match Target(e)
    case None => f
    case Some(ListField(k)) =>
      if e.isCheckbox && !e.checked then WithList(f, k, RemoveValue(GetList(f, k), value))
      else WithList(f, k, GetList(f, k) + [value])
    case Some(ScalarField(k)) => WithScalar(f, k, value)
    case Some(OtherField(name)) => f.(extra := f.extra[name := value])
  }

  /** The check a scalar field controls. */
  function CheckOf(k: ScalarKey): Check
  {
    match k
    case ReviewCountKey => ReviewCountCheck
    case PriceFromKey => PriceFromCheck
    case PriceToKey => PriceToCheck
  }

  /**
   A "number" value that does not parse is not rejected: NaN replaces the prior
   value, and since NaN is falsy the field's check stops filtering.
   */
  lemma {:induction false} ParseFailureStoresNaN(f: Filters, e: ChangeEvent, list: seq<Hotel>)
    requires Target(e).Some? && Target(e).value.ScalarField?
    requires e.numberHint
    requires Unsigned(e.raw) == [] || !IsDigit(Unsigned(e.raw)[0])
    ensures GetScalar(HandleChange(f, e), Target(e).value.scalar) == NaN
    ensures !Active(HandleChange(f, e), CheckOf(Target(e).value.scalar))
    ensures Subseq(ApplyFilters(f, list), ApplyFilters(HandleChange(f, e), list))
  {
    var k := Target(e).value.scalar;
    var g := HandleChange(f, e);
    assert g == WithScalar(f, k, NaN);
    forall h | h in list && Keep(f, h) ensures Keep(g, h) {
      KeepIffAllActiveChecksHold(f, h);
      KeepIffAllActiveChecksHold(g, h);
      forall c | Active(g, c) ensures Holds(g, c, h) {
        assert Active(f, c) && Holds(f, c, h);
      }
    }
    FilterMonotone(f, g, list);
  }

  /** The star checkbox for `n` stars: field "starCount", value `String(n)`, tagged "number". */
  function StarCheckbox(n: int, checked: bool): ChangeEvent
  {
    ChangeEvent(Some("starCount"), IntToString(n), true, true, checked)
  }

  /** A star box event reaches the star list with the number itself as its value. */
  lemma StarCheckboxEffect(f: Filters, n: int, checked: bool)
    ensures HandleChange(f, StarCheckbox(n, checked)) ==
      f.(starCount := if checked then f.starCount + [Num(n)] else RemoveValue(f.starCount, Num(n)))
  {
    ParseIntOfIntToString(n, []);
    assert IntToString(n) + [] == IntToString(n);
    assert EventValue(StarCheckbox(n, checked)) == Num(n);
  }

  /**
   Ticking a star box stores the number itself, and unticking it afterwards
   restores the previous record whenever that number was not selected before.
   */
  lemma StarCheckboxRoundTrip(f: Filters, n: int)
    ensures HandleChange(f, StarCheckbox(n, true)).starCount == f.starCount + [Num(n)]
    ensures Num(n) !in f.starCount ==>
      HandleChange(HandleChange(f, StarCheckbox(n, true)), StarCheckbox(n, false)) == f
  {
    StarCheckboxEffect(f, n, true);
    var g := f.(starCount := f.starCount + [Num(n)]);
    if Num(n) !in f.starCount {
      StarCheckboxEffect(g, n, false);
      RemoveValueAppend(f.starCount, [Num(n)], Num(n));
      RemoveAbsentValue(f.starCount, Num(n));
      assert RemoveValue([Num(n)], Num(n)) == [];
      assert RemoveValue(g.starCount, Num(n)) == f.starCount;
    }
  }

  /** What the form reports to its owner. */
  datatype Notice = Applied(filters: Filters) | ResetRequested

  /** The events the form reacts to. */
  datatype FormEvent = Change(change: ChangeEvent) | Submit | Reset

  /**
   One transition: a change folds into the record silently; submit hands the
   record over and keeps it; reset restores the defaults and notifies.
   */
  function Step(f: Filters, ev: FormEvent): (r: (Filters, Option<Notice>))
    ensures ev.Submit? ==> r.0 == f && r.1 == Some(Applied(f))
    ensures ev.Reset? ==> r.1 == Some(ResetRequested)
    ensures ev.Reset? ==>
      && (forall k :: GetList(r.0, k) == [])
      && r.0.priceFrom == Num(0) && r.0.priceTo == Num(100500) && r.0.reviewCount == Num(-1)
      && r.0.extra == map[]
    ensures ev.Change? ==> r.0 == HandleChange(f, ev.change) && r.1 == None
  {
    match ev
    case Change(e) => (HandleChange(f, e), None)
    case Submit => (f, Some(Applied(f)))
    case Reset => (InitialFilters(), Some(ResetRequested))
  }

  /** A run of events from a starting record: the final record and the notices in order. */
  function Run(f: Filters, evs: seq<FormEvent>): (Filters, seq<Notice>)
    decreases |evs|
  {
    if evs == [] then (f, [])
    else
      var (g, n) := Step(f, evs[0]);
      var (h, ns) := Run(g, evs[1..]);
      (h, (if n.Some? then [n.value] else []) + ns)
  }

  lemma {:induction false} RunAppend(f: Filters, a: seq<FormEvent>, b: seq<FormEvent>)
    ensures Run(f, a + b).0 == Run(Run(f, a).0, b).0
    decreases |a|
  {
    if a == [] {
      assert a + b == b;
    } else {
      assert (a + b)[0] == a[0];
      assert (a + b)[1..] == a[1..] + b;
      RunAppend(Step(f, a[0]).0, a[1..], b);
    }
  }

  /** After a reset the record depends only on the events that follow it, whatever came before. */
  lemma ResetForgetsHistory(f: Filters, before: seq<FormEvent>, after: seq<FormEvent>)
    ensures Run(f, before + [Reset] + after).0 == Run(InitialFilters(), after).0
  {
    RunAppend(f, before, [Reset] + after);
    assert before + [Reset] + after == before + ([Reset] + after);
    assert ([Reset] + after)[0] == Reset && ([Reset] + after)[1..] == after;
  }

  function WithoutSubmits(evs: seq<FormEvent>): seq<FormEvent>
    decreases |evs|
  {
    if evs == [] then []
    else (if evs[0].Submit? then [] else [evs[0]]) + WithoutSubmits(evs[1..])
  }

  /** Submitting never changes the record: dropping every submit gives the same final record. */
  lemma {:induction false} SubmitsLeaveStateAlone(f: Filters, evs: seq<FormEvent>)
    ensures Run(f, evs).0 == Run(f, WithoutSubmits(evs)).0
    decreases |evs|
  {
    if evs != [] {
      SubmitsLeaveStateAlone(Step(f, evs[0]).0, evs[1..]);
      if evs[0].Submit? {
        assert WithoutSubmits(evs) == WithoutSubmits(evs[1..]);
        assert Run(f, evs).0 == Run(f, evs[1..]).0;
      } else {
        var w := [evs[0]] + WithoutSubmits(evs[1..]);
        assert w[0] == evs[0] && w[1..] == WithoutSubmits(evs[1..]);
      }
    }
  }

  /** Submitting right after a reset returns every hotel exactly when each has at least -1 reviews and costs at most 100500. */
  lemma {:induction false} DefaultsKeepAll(f: Filters, list: seq<Hotel>)
    ensures
      var applied := Run(f, [Reset, Submit]).1;
      && applied == [ResetRequested, Applied(InitialFilters())]
      && (ApplyFilters(applied[1].filters, list) == list <==>
            forall h :: h in list ==> h.reviewsAmount >= -1 && h.minPrice <= MaxPrice)
  {
    assert [Reset, Submit][1..] == [Submit];
    FilterKeepsAllIff(InitialFilters(), list);
  }
}

=== FILE: sequences.dfy ===
/** Order-preserving subsequences and duplicate-freedom, shared by the list operations. */
module Sequences {

  /** `a` is obtained from `b` by deleting elements, keeping the order of the rest. */
  predicate Subseq<T(==)>(a: seq<T>, b: seq<T>)
    decreases |b|
  {
    a == [] || (b != [] && ((a[0] == b[0] && Subseq(a[1..], b[1..])) || Subseq(a, b[1..])))
  }

  predicate NoDuplicates<T(==)>(s: seq<T>)
  {
    forall i, j :: 0 <= i < j < |s| ==> s[i] != s[j]
  }

  lemma {:induction false} SubseqReflexive<T>(a: seq<T>)
    ensures Subseq(a, a)
    decreases |a|
  {
    if a != [] {
      SubseqReflexive(a[1..]);
    }
  }

  /** Putting an element in front of the longer sequence keeps a subsequence one. */
  lemma SubseqConsRight<T>(x: T, a: seq<T>, b: seq<T>)
    requires Subseq(a, b)
    ensures Subseq(a, [x] + b)
  {
    assert ([x] + b)[1..] == b;
  }

  /** Putting the same element in front of both keeps a subsequence one. */
  lemma SubseqConsBoth<T>(x: T, a: seq<T>, b: seq<T>)
    requires Subseq(a, b)
    ensures Subseq([x] + a, [x] + b)
  {
    assert ([x] + a)[1..] == a;
    assert ([x] + b)[1..] == b;
  }
}

=== FILE: types.dfy ===
/**
 The records of `src/types.ts`: a hotel as delivered by the static feed and
 the filter record assembled by the search form.
 */
module Types {
  import opened JsValues

  /**
   One hotel. Prices, counts and the guest rating are integers here; `type` is
   a Dafny keyword, so the category label is `hotelType`.
   */
  datatype Hotel = Hotel(
    name: string,
    country: string,
    address: string,
    stars: int,
    hotelType: string,
    description: string,
    services: seq<string>,
    minPrice: int,
    currency: string,
    rating: int,
    reviewsAmount: int,
    lastReview: string)

  /**
   The filter record. The six declared keys hold whatever the form's change
   handler stored in them, so every field holds `Value`s; `extra` holds the
   keys a change event with an unrecognised field name adds to the record.
   */
  datatype Filters = Filters(
    country: seq<Value>,
    hotelType: seq<Value>,
    starCount: seq<Value>,
    reviewCount: Value,
    priceFrom: Value,
    priceTo: Value,
    extra: map<string, Value>)

  /** The keys whose value is an array. */
  datatype ListKey = CountryKey | TypeKey | StarCountKey

  /** The keys whose value is a single number. */
  datatype ScalarKey = ReviewCountKey | PriceFromKey | PriceToKey

  function GetList(f: Filters, k: ListKey): seq<Value>
  {
    match k
    case CountryKey => f.country
    case TypeKey => f.hotelType
    case StarCountKey => f.starCount
  }

  function GetScalar(f: Filters, k: ScalarKey): Value
  {
    match k
    case ReviewCountKey => f.reviewCount
    case PriceFromKey => f.priceFrom
    case PriceToKey => f.priceTo
  }

  /** The six declared keys of `f` and `g` agree; `extra` may differ. */
  predicate SameKnownFields(f: Filters, g: Filters)
  {
    && (forall k :: GetList(f, k) == GetList(g, k))
    && (forall k :: GetScalar(f, k) == GetScalar(g, k))
  }

  /** Every field other than list `k` is the same in `f` and `g`. */
  predicate OnlyListDiffers(f: Filters, g: Filters, k: ListKey)
  {
    && (forall j :: j != k ==> GetList(f, j) == GetList(g, j))
    && (forall j :: GetScalar(f, j) == GetScalar(g, j))
    && f.extra == g.extra
  }

  /** Every field other than scalar `k` is the same in `f` and `g`. */
  predicate OnlyScalarDiffers(f: Filters, g: Filters, k: ScalarKey)
  {
    && (forall j :: GetList(f, j) == GetList(g, j))
    && (forall j :: j != k ==> GetScalar(f, j) == GetScalar(g, j))
    && f.extra == g.extra
  }

  /** `{...f, [k]: vs}` for a list key. */
  function WithList(f: Filters, k: ListKey, vs: seq<Value>): (r: Filters)
    ensures GetList(r, k) == vs
    ensures OnlyListDiffers(f, r, k)
  {
    match k
    case CountryKey => f.(country := vs)
    case TypeKey => f.(hotelType := vs)
    case StarCountKey => f.(starCount := vs)
  }

  /** `{...f, [k]: v}` for a scalar key. */
  function WithScalar(f: Filters, k: ScalarKey, v: Value): (r: Filters)
    ensures GetScalar(r, k) == v
    ensures OnlyScalarDiffers(f, r, k)
  {
    match k
    case ReviewCountKey => f.(reviewCount := v)
    case PriceFromKey => f.(priceFrom := v)
    case PriceToKey => f.(priceTo := v)
  }
}
